=== FILE: README.md ===
# Meeting reaction logger — a Dafny model of its page state

The logger is a single browser page (`script.js`). A facilitator keeps a
roster of participant names and selects one participant. Each tap on an
emoji button logs a reaction for that participant. Meeting dividers can be
inserted into the log, and the log can be cleared, exported and imported.

This project models that page as a state machine over three values:

- `records`, the log, newest entry first, holding reactions and meeting dividers;
- `participants`, the roster of bare names;
- `selected`, the selected name or null.

Each user action is a pure function from one state to the next, paired
with the alert it shows. Persistence in the browser's key-value store is
modelled too, and so is the date/time string built by `getKoreanTime`.

Modules:

- `Wrappers` (`wrappers.dfy`): `Option`, the model of a value that may be null or absent.
- `Text` (`text.dfy`): `trim`, the decimal rendering of integers and `padStart`.
- `Clock` (`clock.dfy`): `getKoreanTime` as a function of the integer calendar fields, plus a parser for its strings.
- `Page` (`page.dfy`): the state, every handler, the invariant and the export/import pair.
- `Storage` (`storage.dfy`): `saveRecords`, `saveParticipants` and `loadRecords`, and which of the saves each handler calls.
- `Session` (`session.dfy`): a two-name session, handler by handler, that shows the store's flaw (see Findings).

The invariant `Page.Valid` says two things. The roster has no duplicate
name. The selection is null or a name on the roster. Adding, deleting and
selecting a roster name all preserve it. An import does not, because it
installs whatever the file holds. A reload, as the page is written, does
not either (see Findings).

## Model

| member | source | states |
|---|---|---|
| Text.TrimStart | script.js:54 | the leading whitespace dropped is all whitespace, and what remains is a suffix that does not start with whitespace |
| Text.TrimEnd | script.js:54 | the trailing whitespace dropped is all whitespace, and what remains is a prefix that does not end with whitespace |
| Text.Trim | script.js:54 | the result is the input minus a whitespace prefix and a whitespace suffix, with no whitespace at either end |
| Text.TrimCharacterised | script.js:54 | a string is the declarative trim of the input if and only if it is what `Trim` returns, so only one trim exists |
| Text.TrimEmptyIff | script.js:56 | a name trims to the empty string exactly when it is all whitespace, which is when the blank-name guard fires |
| Text.TrimIdempotent | script.js:227 | trimming an already trimmed name or meeting id changes nothing |
| Text.NatToString | script.js:7-11 | `String(n)` is a non-empty run of decimal digits with no leading zero, except for zero itself |
| Text.ParseNatToString | script.js:7-11 | reading back the decimal rendering of a number gives the number |
| Text.NatToStringLength | script.js:6-11 | one-digit, two-digit and four-digit numbers render to one, two and four characters |
| Text.IntToString | script.js:14 | a year renders as the decimal digits of its magnitude, which read back as that magnitude, after a minus sign when it is negative |
| Text.PadStart | script.js:7-11 | `padStart` keeps the string whole at the end and fills any shortfall in width with the fill character |
| Clock.Pad2 | script.js:7-11 | a field below 100 becomes two digits that read back as the field; a larger field is rendered unpadded and never truncated |
| Clock.JoinFields | script.js:14-16 | three fields joined by a separator, as the template literals write them, keep each field whole and recoverable at its offset, with the separator between them |
| Clock.FormatKoreanTime | script.js:6-18 | `full` is `dateTime`, a space, then `time`; for fields below 100, `time` is eight characters with colons at positions 2 and 5; the timestamp passes through |
| Clock.TimeRoundTrip | script.js:9-15 | for an in-range hour, minute and second, `time` parses back to exactly those three fields |
| Clock.DateRoundTrip | script.js:6-8 | for a four-digit year and in-range month and day, `dateTime` parses back to the year, `getMonth() + 1` and the day |
| Clock.FullRoundTrip | script.js:6-16 | for a four-digit year and in-range fields, `full` is 19 characters and parses back to the date and the time of day |
| Page.SelectParticipant | script.js:95-98 | the selection becomes the given name, and the log and roster stay as they were |
| Page.SelectPreservesValid | script.js:95-98 | selecting a name on the roster keeps the invariant |
| Page.AddParticipant | script.js:52-75 | blank trimmed input raises the blank-name alert and a name already present raises the duplicate alert, in both cases with no state change; otherwise the trimmed name is appended after unchanged earlier entries; on an empty roster it becomes the selection, otherwise the selection is kept; the log never changes |
| Page.AddPreservesValid | script.js:61-66 | adding keeps the roster free of duplicates and the selection on the roster |
| Page.AddIdempotent | script.js:61-64 | adding the same input a second time changes nothing more |
| Page.IndexOf | script.js:79-80 | `indexOf` finds nothing exactly when the name is absent; otherwise it returns a position holding the name, with no earlier occurrence |
| Page.DeleteParticipant | script.js:78-92 | an absent name is a no-op; otherwise the first occurrence is removed, the other names keep their order, and exactly one copy leaves the multiset; the selection is cleared exactly when it was the deleted name; the log never changes |
| Page.DeletePreservesValid | script.js:78-92 | deleting keeps the invariant, and the deleted name is gone from a duplicate-free roster |
| Page.DeleteUndoesAdd | script.js:61-90 | on a valid state, deleting a name just added restores the state exactly, including the automatic first selection |
| Page.EmojiClick | script.js:136-173 | with no truthy selection the tap raises the no-selection alert and changes nothing; otherwise exactly one reaction for the selected participant goes on top, the old log becomes its tail, and the roster and selection stay as they were |
| Page.AddMeetingDivider | script.js:225-250 | a blank trimmed meeting id raises the blank-id alert and changes nothing; otherwise one divider carrying the trimmed id goes on top of an unchanged log |
| Page.ClearHistory | script.js:209-222 | the log ends up empty exactly when it was already empty or the user confirmed; otherwise it is untouched; the roster and selection never change |
| Page.Imported | script.js:293-295 | a missing list falls back to an empty one; a missing or empty selection becomes null, so the imported selection is never the empty name; the roster is taken without checks |
| Page.ImportFile | script.js:283-320 | only a parsed and confirmed file changes the state, and then it replaces the whole state and shows the done alert; the error alert shows exactly for a file that cannot be parsed and for a confirmed file holding `null`; no alert shows exactly when there is no file or the user declines |
| Page.ExportData | script.js:253-259 | the exported object carries the export date and both lists, and importing it gives back the state unless its selection was the empty name |
| Page.ExportImportRoundTrip | script.js:253-295 | importing an exported state gives that state back, unless its selection was the empty name |
| Page.ImportValidIff | script.js:292-295 | a confirmed import leaves the invariant holding exactly when the file's roster has no duplicate and its selection is absent, empty or on that roster |
| Page.ImportAcceptsDuplicates | script.js:293-295 | any file whose roster repeats a name is installed as it is, and the invariant no longer holds |
| Page.HasSelection | script.js:138 | the truthiness test on the selection: null and the empty name fail it; `Page.EmojiClick` states that a tap is logged exactly when it passes |
| Page.Apply | script.js:322-355 | dispatches a wired event to its handler: add, delete and select leave the log alone, emoji, divider and clear leave the roster and selection alone, and an import that is not both parsed and confirmed changes nothing |
| Page.Run | script.js:322-355 | the page after a sequence of events, first event first; `Page.RunAppend` and `Page.RunPreservesValid` state what it means |
| Page.RunAppend | script.js:322-355 | handling one sequence of events and then another leaves the page where handling them as one sequence does |
| Page.RunPreservesValid | script.js:119-124 | along any sequence of events without imports, where every selection is a roster name, the invariant holds at the end; delete and select come from the chip handlers wired here, and the other events from the listeners at script.js:322-355 |
| Storage.Load | script.js:42-45 | absent lists load as empty ones; an absent or empty selection loads as null and any other stored selection loads as itself, so a loaded selection is never the empty name |
| Storage.StoredString | script.js:39 | `setItem` stores a name as it is and null as the text "null", so null and the name "null" are stored alike and nothing else is |
| Storage.SaveRecords | script.js:33-35 | after `saveRecords` the next load sees the new log, with the roster and selection as they loaded before |
| Storage.SaveParticipantsAsWritten | script.js:37-40 | after `saveParticipants` as written, the next load sees the new roster and the old log; a null selection loads as the name "null", and any other non-empty selection as itself |
| Storage.SaveParticipants | script.js:37-40 | with the corrected `saveParticipants`, the next load sees the new roster, the old log and the saved selection, unless that was the empty name |
| Storage.AfterAction | script.js:67-298 | the saves each handler makes once its guards pass (lines 67, 82 and 88, 97, 168, 214, 244, 297-298): roster handlers never write the log key, log handlers never write the roster or selection keys, a refused action writes nothing, and an import writes only when the file parsed and the user confirmed |
| Storage.LoadEmptyStore | script.js:29-31 | a page opened on an empty store starts with an empty log, an empty roster and no selection |
| Storage.Persist | script.js:297-298 | the confirmed import's two saves, `saveRecords` then the corrected `saveParticipants`; `Storage.ReloadRestores` states that a reload gives back the saved state |
| Storage.RunStore | script.js:322-355 | the store after a sequence of events, each handler making its own saves in turn; `Storage.RunReloadRestores` and `Session.ReloadAsWrittenBreaksValid` state what a reload of it gives |
| Storage.ReloadRestores | script.js:33-45 | with the corrected `saveParticipants`, the import's two saves followed by a reload give back the saved state whenever the selection is not the empty name |
| Storage.ActionReloadRestores | script.js:33-45 | with the corrected save, each handler, saving only what it changed once its guards pass, keeps the store loading as the current page |
| Storage.RunReloadRestores | script.js:33-45 | with the corrected save, a reload at any point of any session in a single tab gives back the page, unless someone selected the empty name |
| Session.ReloadAsWrittenBreaksValid | script.js:37-45 | for any two different names typed on a fresh page, unless the second trims to "null", add the first, add the second, delete the first: the page is valid with nobody selected, but as written a reload selects "null", which breaks the invariant and lets a reaction be logged for "null"; with the corrected save the reload gives back the page |

## Left out

- Rendering (`displayHistory`, `displayParticipants`, `updateSelectedDisplay`, the chip class toggling), scrolling, the button animation and the clock ticker (`updateCurrentTime`, `setInterval`) are presentation and change no state.
- Reading the clock and converting to the Asia/Seoul zone (`new Date()`, `toLocaleString`, `getTime`) are library calls. The calendar fields and the timestamp are parameters of `Clock.FormatKoreanTime`.
- `alert` is modelled as the `Alert` value a handler returns. `confirm` is a boolean parameter.
- `JSON.stringify` and `JSON.parse` are assumed to give back the same lists. A file that fails to parse is the `Unreadable` input, and a file holding the JSON literal `null` is `ParsedNull`. Other values of an unexpected JSON type (a number or a string as the whole file, a string where a list belongs, a number as the selection) are outside the typed model.
- The download in `exportData` (`Blob`, object URLs, the link element) is I/O. Only the exported data object is modelled. `importData` only opens the file picker, so it is not modelled.
- The `beforeunload` warning is browser lifecycle only.
- `getAttribute` can return null for a button without `data-emoji` or `data-name`. The model takes both as strings.
- The spreadsheet/pivot export and participant e-mail addresses are not in `script.js`, so they are not modelled.
- The store is modelled with typed slots for the two JSON keys rather than as raw strings, because JSON is taken as lossless. The selection key holds raw text, as in the page.
- Clock.FullRoundTrip: stated only for four-digit years. Other years render with a different width, or with a minus sign, and the fixed-width parser does not read them.
- Page.RunPreservesValid: covers traces without imports, where every selection names a roster member. That is the intended behaviour of the roster chips, not what `script.js` guarantees (see the next line). Imports are covered separately by Page.ImportValidIff and Page.ImportAcceptsDuplicates.
- The chips' handlers are built as `onclick="selectParticipant('${name}')"` (script.js:119-124), so the argument is the name after HTML character references and JavaScript string escapes are decoded. A name such as `Tom&amp;Jerry` selects `Tom&Jerry`, which is not on the roster. A name containing a quote gives a handler that does not run, so that participant can be neither selected nor deleted. The model passes the roster name itself, which matches the page only for names without `&`, `\`, `'` and `"`.
- Page.ImportFile: assumes both saves succeed. If `saveRecords` at script.js:297 throws (a full store), the state has already been replaced at lines 293-295, yet the catch at lines 311-312 shows the error alert; the model's "state unchanged exactly when the error alert shows" does not cover that case.
- Storage.RunReloadRestores: assumes every `setItem` succeeds. A save that throws, for example at script.js:168 after the reaction is already in the log, leaves the page ahead of the store, so a reload would not give back the page.
- Storage.RunReloadRestores: assumes this page is the only writer of the store. Every tab of the same origin shares the store, and the page reads it only at start-up (script.js:29-31) and never listens for changes made elsewhere. If two tabs each log a reaction, line 168 in the second tab overwrites the first tab's log, so reloading the first tab does not give back its page.
- Text.IsWhitespace: lists the Unicode space separators by code point. Later Unicode versions could add new ones.

## Findings

| source | as written | input that shows it | evidently intended | confidence | as-written member | corrected member |
|---|---|---|---|---|---|---|
| script.js:39 | `saveParticipants` passes a null selection to `setItem`, which stores the text "null"; the reload at line 45 reads it back as a truthy name | on a fresh page add "Lee", add "Kim", delete "Lee" (line 88 saves the cleared selection), then reload: the selection becomes "null", which is not on the roster, and the next emoji tap is logged for "null" | a null selection removes the key, so a reload gives back null | high; not executed | Session.ReloadAsWrittenBreaksValid | Storage.RunReloadRestores |

=== FILE: clock.dfy ===
/** The string part of `getKoreanTime` (script.js): the calendar fields of
    the Asia/Seoul wall clock are rendered as `YYYY-MM-DD`, `HH:MM:SS`
    and their concatenation. Reading the clock and converting time zones
    are outside the model; the fields arrive as integers, exactly as the
    `Date` getters return them. */
module Clock {
  import opened Wrappers
  import Text

  /** The object `getKoreanTime` returns. */
  datatype KoreanTime = KoreanTime(full: string, time: string, dateTime: string, timestamp: int)

  /** A calendar date (`month` counts from 1). */
  datatype CalendarDate = CalendarDate(year: int, month: nat, day: nat)

  /** A wall-clock time of day. */
  datatype TimeOfDay = TimeOfDay(hours: nat, minutes: nat, seconds: nat)

  /** The fields a rendered `full` string carries. */
  datatype Stamp = Stamp(date: CalendarDate, time: TimeOfDay)

  /** `String(n).padStart(2, '0')`: two digits that read back as `n` when
      `n` has at most two digits, the plain rendering otherwise. */
  function Pad2(n: nat): (r: string)
    ensures Text.AllDigits(r)
    ensures n < 100 ==> |r| == 2 && Text.ParseDecimal(r) == n
    ensures n >= 100 ==> r == Text.NatToString(n)
  {
    var digits := Text.NatToString(n);
    Text.NatToStringLength(n);
    Text.ParseNatToString(n);
    var r := Text.PadStart(digits, 2, '0');
    assert n < 10 ==> r == ['0'] + digits;
    assert n < 10 ==> r[..1] == ['0'] && r[1] == digits[0];
    r
  }

  /** Three fields joined by `sep`, as a template literal writes them;
      each field can be cut back out at its offset. */
  function JoinFields(a: string, b: string, c: string, sep: char): (r: string)
    ensures |r| == |a| + |b| + |c| + 2
    ensures r[..|a|] == a && r[|a|] == sep
    ensures r[|a| + 1..|a| + 1 + |b|] == b && r[|a| + 1 + |b|] == sep
    ensures r[|a| + |b| + 2..] == c
  {
    var r := a + [sep] + b + [sep] + c;
    assert r[|a| + 1..|a| + 1 + |b|] == b;
    assert r[|a| + |b| + 2..] == c;
    r
  }

  /** `getKoreanTime` from the getter values: `monthIndex` is
      `getMonth()` (zero-based), the others are taken as they come. */
  function FormatKoreanTime(year: int, monthIndex: nat, day: nat, hours: nat,
                            minutes: nat, seconds: nat, timestamp: int): (t: KoreanTime)
    ensures t.timestamp == timestamp
    ensures t.full == t.dateTime + " " + t.time
    ensures hours < 100 && minutes < 100 && seconds < 100 ==>
              |t.time| == 8 && t.time[2] == ':' && t.time[5] == ':'
  {
    var date := JoinFields(Text.IntToString(year), Pad2(monthIndex + 1), Pad2(day), '-');
    var time := JoinFields(Pad2(hours), Pad2(minutes), Pad2(seconds), ':');
    var full := JoinFields(Text.IntToString(year), Pad2(monthIndex + 1), Pad2(day), '-') + " "
                + JoinFields(Pad2(hours), Pad2(minutes), Pad2(seconds), ':');
    KoreanTime(full, time, date, timestamp)
  }

  /** Reads `HH:MM:SS` back into its fields. */
  function ParseTimeOfDay(s: string): Option<TimeOfDay> {
    if |s| == 8 && s[2] == ':' && s[5] == ':'
       && Text.AllDigits(s[0..2]) && Text.AllDigits(s[3..5]) && Text.AllDigits(s[6..8])
    then Some(TimeOfDay(Text.ParseDecimal(s[0..2]), Text.ParseDecimal(s[3..5]),
                        Text.ParseDecimal(s[6..8])))
    else None
  }

  /** Reads `YYYY-MM-DD` (a four-digit year) back into its fields. */
  function ParseDate(s: string): Option<CalendarDate> {
    if |s| == 10 && s[4] == '-' && s[7] == '-'
       && Text.AllDigits(s[0..4]) && Text.AllDigits(s[5..7]) && Text.AllDigits(s[8..10])
    then Some(CalendarDate(Text.ParseDecimal(s[0..4]), Text.ParseDecimal(s[5..7]),
                           Text.ParseDecimal(s[8..10])))
    else None
  }

  /** Reads `YYYY-MM-DD HH:MM:SS` back into its fields. */
  function ParseFull(s: string): Option<Stamp> {
    if |s| == 19 && s[10] == ' ' then
      match (ParseDate(s[..10]), ParseTimeOfDay(s[11..]))
      case (Some(d), Some(t)) => Some(Stamp(d, t))
      case _ => None
    else None
  }

  /** Two-digit fields joined by colons parse back field by field. */
  lemma ParseJoinedTime(hh: string, mm: string, ss: string)
    requires |hh| == 2 && |mm| == 2 && |ss| == 2
    requires Text.AllDigits(hh) && Text.AllDigits(mm) && Text.AllDigits(ss)
    ensures ParseTimeOfDay(JoinFields(hh, mm, ss, ':'))
            == Some(TimeOfDay(Text.ParseDecimal(hh), Text.ParseDecimal(mm), Text.ParseDecimal(ss)))
  {
    var s := JoinFields(hh, mm, ss, ':');
    assert s[0..2] == hh;
    assert s[6..8] == ss by { assert s[6..] == ss; }
  }

  /** A four-digit year and two-digit fields joined by dashes parse back
      field by field. */
  lemma ParseJoinedDate(yyyy: string, mo: string, dd: string)
    requires |yyyy| == 4 && |mo| == 2 && |dd| == 2
    requires Text.AllDigits(yyyy) && Text.AllDigits(mo) && Text.AllDigits(dd)
    ensures ParseDate(JoinFields(yyyy, mo, dd, '-'))
            == Some(CalendarDate(Text.ParseDecimal(yyyy), Text.ParseDecimal(mo), Text.ParseDecimal(dd)))
  {
    var s := JoinFields(yyyy, mo, dd, '-');
    assert s[0..4] == yyyy;
    assert s[8..10] == dd by { assert s[8..] == dd; }
  }

  /** A readable date, a space and a readable time read back as both. */
  lemma ParseJoinedStamp(date: string, time: string)
    requires ParseDate(date).Some? && ParseTimeOfDay(time).Some?
    ensures |date + " " + time| == 19
    ensures ParseFull(date + " " + time) == Some(Stamp(ParseDate(date).value, ParseTimeOfDay(time).value))
  {
    var s := date + " " + time;
    assert s[..10] == date && s[11..] == time;
  }

  /** Every field of an in-range time of day survives rendering: the
      `time` string reads back as the clock. */
  lemma TimeRoundTrip(year: int, monthIndex: nat, day: nat, hours: nat,
                      minutes: nat, seconds: nat, timestamp: int)
    requires hours < 24 && minutes < 60 && seconds < 60
    ensures ParseTimeOfDay(FormatKoreanTime(year, monthIndex, day, hours, minutes, seconds, timestamp).time)
            == Some(TimeOfDay(hours, minutes, seconds))
  {
    ParseJoinedTime(Pad2(hours), Pad2(minutes), Pad2(seconds));
  }

  /** For a four-digit year and in-range fields, `dateTime` reads back as
      the date, with the month shifted from `getMonth`'s zero-based count. */
  lemma DateRoundTrip(year: int, monthIndex: nat, day: nat, hours: nat,
                      minutes: nat, seconds: nat, timestamp: int)
    requires 1000 <= year <= 9999 && monthIndex < 12 && 1 <= day <= 31
    ensures ParseDate(FormatKoreanTime(year, monthIndex, day, hours, minutes, seconds, timestamp).dateTime)
            == Some(CalendarDate(year, monthIndex + 1, day))
  {
    var yyyy := Text.IntToString(year);
    assert yyyy == Text.NatToString(year);
    Text.NatToStringLength(year);
    Text.ParseNatToString(year);
    ParseJoinedDate(yyyy, Pad2(monthIndex + 1), Pad2(day));
  }

  /** For a four-digit year and in-range fields, `full` is nineteen
      characters that read back as the date and the time of day. */
  lemma FullRoundTrip(year: int, monthIndex: nat, day: nat, hours: nat,
                      minutes: nat, seconds: nat, timestamp: int)
    requires 1000 <= year <= 9999 && monthIndex < 12 && 1 <= day <= 31
    requires hours < 24 && minutes < 60 && seconds < 60
    ensures |FormatKoreanTime(year, monthIndex, day, hours, minutes, seconds, timestamp).full| == 19
    ensures ParseFull(FormatKoreanTime(year, monthIndex, day, hours, minutes, seconds, timestamp).full)
            == Some(Stamp(CalendarDate(year, monthIndex + 1, day), TimeOfDay(hours, minutes, seconds)))
  {
    var t := FormatKoreanTime(year, monthIndex, day, hours, minutes, seconds, timestamp);
    DateRoundTrip(year, monthIndex, day, hours, minutes, seconds, timestamp);
    TimeRoundTrip(year, monthIndex, day, hours, minutes, seconds, timestamp);
    ParseJoinedStamp(t.dateTime, t.time);
  }
}

=== FILE: page.dfy ===
/** The page state of the meeting reaction logger (script.js) and the user
    actions that change it. The page keeps three values: the reaction log
    `records` (newest first, reactions and meeting dividers mixed), the
    roster `participants` (bare names) and the `selected` participant (a
    name or null). Each handler is a pure function from the state before
    to the state after, together with the alert it raises; the DOM, the
    clock, `confirm` and file reading become parameters. */
module Page {
  import opened Wrappers
  import Text
  import Clock

  /** One entry of the log: a reaction tapped for the selected participant,
      or a meeting divider. `name` is the reaction's label (the button's
      `data-name`), `participant` the name selected at the time. */
  datatype Record =
    | Reaction(emoji: string, name: string, participant: string, time: string, timestamp: int)
    | MeetingDivider(meetingId: string, time: string, timestamp: int)

  datatype State = State(records: seq<Record>, participants: seq<string>, selected: Option<string>)

  /** The messages the handlers show with `alert`. */
  datatype Alert =
    | BlankName        // no participant name typed
    | DuplicateName    // the name is already on the roster
    | NoSelection      // a reaction was tapped with nobody selected
    | BlankMeetingId   // no meeting id typed
    | ImportFailed     // the chosen file is not JSON, or its fields cannot be read
    | ImportDone       // the imported data replaced the page state

  /** The state after a handler ran, and the alert it showed, if any. */
  datatype Step = Step(next: State, alert: Option<Alert>)

  /** The state of a page opened on an empty store. */
  const Initial := State([], [], None)

  predicate NoDuplicates(xs: seq<string>) {
    forall i, j :: 0 <= i < j < |xs| ==> xs[i] != xs[j]
  }

  /** The roster has no duplicate name and the selection, if any, is on it. */
  predicate Valid(s: State) {
    && NoDuplicates(s.participants)
    && (s.selected.None? || s.selected.value in s.participants)
  }

  /** JavaScript truthiness of the selection: both null and "" are falsy. */
  predicate HasSelection(s: State) {
    s.selected.Some? && s.selected.value != ""
  }

  /** `selectParticipant`: the selection becomes `name`, whatever it is. */
  function SelectParticipant(s: State, name: string): (r: State)
    ensures r.selected == Some(name)
    ensures r.records == s.records && r.participants == s.participants
  {
    s.(selected := Some(name))
  }

  /** `addParticipant`: the typed name, trimmed, is refused when blank or
      already on the roster, and otherwise appended; the first name on an
      empty roster also becomes the selection. */
  function AddParticipant(s: State, input: string): (r: Step)
    ensures r.next.records == s.records
    ensures r.alert == Some(BlankName) <==> Text.Trim(input) == []
    ensures r.alert == Some(DuplicateName) <==> Text.Trim(input) != [] && Text.Trim(input) in s.participants
    ensures r.alert.None? <==> Text.Trim(input) != [] && Text.Trim(input) !in s.participants
    ensures r.alert.Some? ==> r.next == s
    ensures r.alert.None? ==>
              && |r.next.participants| == |s.participants| + 1
              && r.next.participants[..|s.participants|] == s.participants
              && r.next.participants[|s.participants|] == Text.Trim(input)
    ensures r.alert.None? && s.participants == [] ==> r.next.selected == Some(Text.Trim(input))
    ensures r.alert.None? && s.participants != [] ==> r.next.selected == s.selected
  {
    var name := Text.Trim(input);
    if name == [] then Step(s, Some(BlankName))
    else if name in s.participants then Step(s, Some(DuplicateName))
    else
      var added := s.(participants := s.participants + [name]);
      Step(if |added.participants| == 1 then SelectParticipant(added, name) else added, None)
  }

  /** `participants.indexOf(x)`: the first position holding `x`, or none. */
  function IndexOf(xs: seq<string>, x: string): (r: Option<nat>)
    ensures r.None? <==> x !in xs
    ensures r.Some? ==> r.value < |xs| && xs[r.value] == x && x !in xs[..r.value]
  {
    if xs == [] then None
    else if xs[0] == x then Some(0)
    else match IndexOf(xs[1..], x)
      case None => None
      case Some(i) =>
        assert xs[..i + 1] == [xs[0]] + xs[1..][..i];
        Some(i + 1)
  }

  /** `deleteParticipant`: the first occurrence of `name` leaves the roster
      and the others keep their order; the selection is cleared when it was
      that name. An absent name changes nothing. */
  function DeleteParticipant(s: State, name: string): (r: State)
    ensures r.records == s.records
    ensures name !in s.participants ==> r == s
    ensures name in s.participants ==>
              exists i :: 0 <= i < |s.participants| && s.participants[i] == name
                          && name !in s.participants[..i]
                          && r.participants == s.participants[..i] + s.participants[i + 1..]
    ensures multiset(r.participants) == multiset(s.participants) - multiset{name}
    ensures name in s.participants && s.selected == Some(name) ==> r.selected == None
    ensures !(name in s.participants && s.selected == Some(name)) ==> r.selected == s.selected
  {
    match IndexOf(s.participants, name)
    case None => s
    case Some(i) =>
      var rest := s.participants[..i] + s.participants[i + 1..];
      assert s.participants == s.participants[..i] + [name] + s.participants[i + 1..];
      s.(participants := rest, selected := if s.selected == Some(name) then None else s.selected)
  }

  /** `handleEmojiClick`: without a (truthy) selection the tap is refused;
      otherwise one reaction for the selected participant, stamped with the
      given clock reading, goes on top of the log. */
  function EmojiClick(s: State, emoji: string, name: string, now: Clock.KoreanTime): (r: Step)
    ensures r.next.participants == s.participants && r.next.selected == s.selected
    ensures r.alert.Some? <==> !HasSelection(s)
    ensures !HasSelection(s) ==> r.alert == Some(NoSelection) && r.next == s
    ensures HasSelection(s) ==>
              && |r.next.records| == |s.records| + 1
              && r.next.records[1..] == s.records
              && r.next.records[0].Reaction?
              && r.next.records[0].participant == s.selected.value
              && r.next.records[0].emoji == emoji && r.next.records[0].name == name
              && r.next.records[0].time == now.full && r.next.records[0].timestamp == now.timestamp
  {
    if !HasSelection(s) then Step(s, Some(NoSelection))
    else
      var record := Reaction(emoji, name, s.selected.value, now.full, now.timestamp);
      Step(s.(records := [record] + s.records), None)
  }

  /** `addMeetingDivider`: the typed meeting id, trimmed, is refused when
      blank; otherwise a divider carrying it goes on top of the log. */
  function AddMeetingDivider(s: State, input: string, now: Clock.KoreanTime): (r: Step)
    ensures r.next.participants == s.participants && r.next.selected == s.selected
    ensures r.alert.Some? <==> Text.Trim(input) == []
    ensures r.alert.Some? ==> r.alert == Some(BlankMeetingId) && r.next == s
    ensures r.alert.None? ==>
              && |r.next.records| == |s.records| + 1
              && r.next.records[1..] == s.records
              && r.next.records[0].MeetingDivider?
              && r.next.records[0].meetingId == Text.Trim(input)
              && r.next.records[0].time == now.full && r.next.records[0].timestamp == now.timestamp
  {
    var meetingId := Text.Trim(input);
    if meetingId == [] then Step(s, Some(BlankMeetingId))
    else Step(s.(records := [MeetingDivider(meetingId, now.full, now.timestamp)] + s.records), None)
  }

  /** `handleClearHistory`: an empty log is left alone without asking; a
      non-empty one is emptied when the user confirms. */
  function ClearHistory(s: State, confirmed: bool): (r: State)
    ensures r.participants == s.participants && r.selected == s.selected
    ensures r.records == [] <==> s.records == [] || confirmed
    ensures r.records != [] ==> r.records == s.records
  {
    if s.records == [] then s
    else if confirmed then s.(records := [])
    else s
  }

  /** The JSON object `exportData` writes and the import reads; a field
      that is absent from the file (or JSON null) is `None`. */
  datatype Snapshot = Snapshot(
    records: Option<seq<Record>>,
    participants: Option<seq<string>>,
    selectedParticipant: Option<string>,
    exportDate: Option<string>)

  /** What the file picker and `JSON.parse` delivered. `ParsedNull` is a
      file whose text is the JSON literal `null`: it parses, so the user is
      asked, but reading its fields then throws. */
  datatype FileRead = NoFile | Unreadable | ParsedNull | Parsed(data: Snapshot)

  /** The data object of `exportData`; the download itself is not modelled. */
  function ExportData(s: State, exportDate: string): (r: Snapshot)
    ensures r.exportDate == Some(exportDate)
    ensures r.records.Some? && r.participants.Some?
    ensures s.selected != Some("") ==> Imported(r) == s
  {
    Snapshot(Some(s.records), Some(s.participants), s.selected, Some(exportDate))
  }

  /** The state an import installs: absent fields fall back to empty
      lists, and a missing or empty selection becomes null. The roster is
      taken as it is, duplicates included. */
  function Imported(d: Snapshot): (r: State)
    ensures r.selected.Some? ==> r.selected.value != ""
    ensures r.selected.None? <==> d.selectedParticipant.None? || d.selectedParticipant == Some("")
    ensures d.selectedParticipant.Some? && d.selectedParticipant != Some("") ==> r.selected == d.selectedParticipant
    ensures d.records.None? ==> r.records == []
    ensures d.records.Some? ==> r.records == d.records.value
    ensures d.participants.None? ==> r.participants == []
    ensures d.participants.Some? ==> r.participants == d.participants.value
  {
    var selected := if d.selectedParticipant == Some("") then None else d.selectedParticipant;
    State(d.records.GetOr([]), d.participants.GetOr([]), selected)
  }

  /** The file-reading part of `handleFileSelect`: nothing happens without
      a file or without confirmation, an unparsable file and a confirmed
      `null` file only raise the error alert, and a confirmed file replaces
      the whole state. */
  function ImportFile(s: State, file: FileRead, confirmed: bool): (r: Step)
    ensures file.Parsed? && confirmed ==> r.next == Imported(file.data) && r.alert == Some(ImportDone)
    ensures !(file.Parsed? && confirmed) ==> r.next == s
    ensures r.alert == Some(ImportFailed) <==> file.Unreadable? || (file.ParsedNull? && confirmed)
    ensures r.alert.None? <==> file.NoFile? || ((file.Parsed? || file.ParsedNull?) && !confirmed)
  {
    match file
    case NoFile => Step(s, None)
    case Unreadable => Step(s, Some(ImportFailed))
    case ParsedNull => if confirmed then Step(s, Some(ImportFailed)) else Step(s, None)
    case Parsed(d) => if confirmed then Step(Imported(d), Some(ImportDone)) else Step(s, None)
  }

  /** The user actions the page wires to its buttons and inputs. */
  datatype Action =
    | Add(input: string)
    | Delete(name: string)
    | Select(name: string)
    | Emoji(emoji: string, reaction: string, now: Clock.KoreanTime)
    | Divider(input: string, now: Clock.KoreanTime)
    | Clear(confirmed: bool)
    | Import(file: FileRead, confirmed: bool)

  /** The state after one action. */
  function Apply(s: State, a: Action): (r: State)
    ensures a.Add? || a.Delete? || a.Select? ==> r.records == s.records
    ensures a.Emoji? || a.Divider? || a.Clear? ==> r.participants == s.participants && r.selected == s.selected
    ensures a.Import? && !(a.file.Parsed? && a.confirmed) ==> r == s
  {
    match a
    case Add(input) => AddParticipant(s, input).next
    case Delete(name) => DeleteParticipant(s, name)
    case Select(name) => SelectParticipant(s, name)
    case Emoji(emoji, reaction, now) => EmojiClick(s, emoji, reaction, now).next
    case Divider(input, now) => AddMeetingDivider(s, input, now).next
    case Clear(confirmed) => ClearHistory(s, confirmed)
    case Import(file, confirmed) => ImportFile(s, file, confirmed).next
  }

  /** The state after a sequence of actions, first action first. */
  function Run(s: State, actions: seq<Action>): State
    decreases |actions|
  {
    if actions == [] then s else Run(Apply(s, actions[0]), actions[1..])
  }

  /** Running two sequences one after the other is running their
      concatenation. */
  lemma {:induction false} RunAppend(s: State, xs: seq<Action>, ys: seq<Action>)
    ensures Run(s, xs + ys) == Run(Run(s, xs), ys)
    decreases |xs|
  {
    if xs == [] {
      assert xs + ys == ys;
    } else {
      assert (xs + ys)[0] == xs[0];
      assert (xs + ys)[1..] == xs[1..] + ys;
      RunAppend(Apply(s, xs[0]), xs[1..], ys);
    }
  }

  /** Actions that keep the invariant: every one, except that a selection
      must name a roster member (what the roster chips are meant to pass to
      `selectParticipant`), and leaving out imports, which install whatever
      the file holds. */
  predicate KeepsRoster(s: State, a: Action) {
    match a
    case Select(name) => name in s.participants
    case Import(_, _) => false
    case _ => true
  }

  /** Every action of a sequence keeps the invariant at the state it meets. */
  predicate KeepsRosterAll(s: State, actions: seq<Action>)
    decreases |actions|
  {
    actions == [] || (KeepsRoster(s, actions[0]) && KeepsRosterAll(Apply(s, actions[0]), actions[1..]))
  }

  /** Adding a name keeps the roster free of duplicates and the selection on it. */
  lemma AddPreservesValid(s: State, input: string)
    requires Valid(s)
    ensures Valid(AddParticipant(s, input).next)
  {
  }

  /** Adding the same input twice is the same as adding it once. */
  lemma AddIdempotent(s: State, input: string)
    ensures AddParticipant(AddParticipant(s, input).next, input).next == AddParticipant(s, input).next
  {
  }

  /** Deleting keeps the roster free of duplicates and the selection on it;
      the deleted name is gone from a duplicate-free roster. */
  lemma DeletePreservesValid(s: State, name: string)
    requires Valid(s)
    ensures Valid(DeleteParticipant(s, name))
    ensures name !in DeleteParticipant(s, name).participants
  {
  }

  /** Selecting a name shown on the roster keeps the invariant. */
  lemma SelectPreservesValid(s: State, name: string)
    requires Valid(s) && name in s.participants
    ensures Valid(SelectParticipant(s, name))
  {
  }

  /** Deleting the name just added undoes the addition completely, the
      auto-selection of a first participant included. */
  lemma DeleteUndoesAdd(s: State, input: string)
    requires Valid(s)
    requires AddParticipant(s, input).alert.None?
    ensures DeleteParticipant(AddParticipant(s, input).next, Text.Trim(input)) == s
  {
  }

  /** Along any sequence of actions that keep the roster, the invariant
      set up by the initial page holds at every step. */
  lemma {:induction false} RunPreservesValid(s: State, actions: seq<Action>)
    requires Valid(s) && KeepsRosterAll(s, actions)
    ensures Valid(Run(s, actions))
    decreases |actions|
  {
    if actions != [] {
      var a := actions[0];
      if a.Add? {
        AddPreservesValid(s, a.input);
      } else if a.Delete? {
        DeletePreservesValid(s, a.name);
      }
      RunPreservesValid(Apply(s, a), actions[1..]);
    }
  }

  /** Importing what was exported restores the state, as long as the
      selection is not the empty name (which the import turns into null). */
  lemma ExportImportRoundTrip(s: State, current: State, exportDate: string)
    requires s.selected != Some("")
    ensures ImportFile(current, Parsed(ExportData(s, exportDate)), true).next == s
  {
  }

  /** A confirmed import leaves a valid page exactly when the file's roster
      has no duplicate and its selection is absent, empty or on that roster:
      nothing is re-checked, so the file alone decides. */
  lemma ImportValidIff(s: State, d: Snapshot)
    ensures Valid(ImportFile(s, Parsed(d), true).next) <==>
              && NoDuplicates(d.participants.GetOr([]))
              && (d.selectedParticipant.None? || d.selectedParticipant == Some("")
                  || d.selectedParticipant.value in d.participants.GetOr([]))
  {
  }

  /** The import does not re-check the roster: any file whose roster
      repeats a name is installed as it is and breaks the invariant. */
  lemma ImportAcceptsDuplicates(s: State, d: Snapshot)
    requires d.participants.Some? && !NoDuplicates(d.participants.value)
    ensures ImportFile(s, Parsed(d), true).next.participants == d.participants.value
    ensures !Valid(ImportFile(s, Parsed(d), true).next)
  {
  }
}

=== FILE: session.dfy ===
/** A worked session that shows the store's null selection at work: on a
    fresh page, type a name `ia` (added and selected automatically), type a
    second name `ib`, then delete the first. Each handler's effect on the
    page and on the store is stated on its own, and the run is assembled
    from them. The names on the roster are the trimmed inputs. */
module Session {
  import opened Wrappers
  import Text
  import Clock
  import Page
  import Storage

  /** The actions of the session. */
  function Actions(ia: string, ib: string): seq<Page.Action> {
    [Page.Add(ia), Page.Add(ib), Page.Delete(Text.Trim(ia))]
  }

  /** A first name typed on a fresh page is added and selected. */
  lemma AddFirstHandler(ia: string)
    requires Text.Trim(ia) != []
    ensures Page.AddParticipant(Page.Initial, ia)
            == Page.Step(Page.State([], [Text.Trim(ia)], Some(Text.Trim(ia))), None)
  {
  }

  /** A second, different name is appended and the selection kept. */
  lemma AddSecondHandler(a: string, ib: string)
    requires Text.Trim(ib) != [] && a != Text.Trim(ib)
    ensures Page.AddParticipant(Page.State([], [a], Some(a)), ib)
            == Page.Step(Page.State([], [a, Text.Trim(ib)], Some(a)), None)
  {
  }

  /** Deleting the selected first name leaves the second alone, with
      nobody selected. */
  lemma DeleteFirstHandler(a: string, b: string)
    requires a != b
    ensures Page.DeleteParticipant(Page.State([], [a, b], Some(a)), a) == Page.State([], [b], None)
  {
    assert Page.IndexOf([a, b], a) == Some(0);
    assert [a, b][..0] + [a, b][1..] == [b];
  }

  lemma AddFirstStore(st: Storage.Store, ia: string, corrected: bool)
    requires Text.Trim(ia) != []
    ensures Page.Apply(Page.Initial, Page.Add(ia)) == Page.State([], [Text.Trim(ia)], Some(Text.Trim(ia)))
    ensures Storage.AfterAction(st, Page.Initial, Page.Add(ia), corrected)
            == Storage.WriteParticipants(st, Page.State([], [Text.Trim(ia)], Some(Text.Trim(ia))), corrected)
  {
    AddFirstHandler(ia);
  }

  lemma AddSecondStore(st: Storage.Store, a: string, ib: string, corrected: bool)
    requires Text.Trim(ib) != [] && a != Text.Trim(ib)
    ensures Page.Apply(Page.State([], [a], Some(a)), Page.Add(ib)) == Page.State([], [a, Text.Trim(ib)], Some(a))
    ensures Storage.AfterAction(st, Page.State([], [a], Some(a)), Page.Add(ib), corrected)
            == Storage.WriteParticipants(st, Page.State([], [a, Text.Trim(ib)], Some(a)), corrected)
  {
    AddSecondHandler(a, ib);
  }

  lemma DeleteFirstStore(st: Storage.Store, a: string, b: string, corrected: bool)
    requires a != b
    ensures Page.Apply(Page.State([], [a, b], Some(a)), Page.Delete(a)) == Page.State([], [b], None)
    ensures Storage.AfterAction(st, Page.State([], [a, b], Some(a)), Page.Delete(a), corrected)
            == Storage.WriteParticipants(st, Page.State([], [b], None), corrected)
  {
    DeleteFirstHandler(a, b);
  }

  lemma PagesFromSecond(a: string, b: string)
    requires a != b
    ensures Page.Run(Page.State([], [a, b], Some(a)), [Page.Delete(a)]) == Page.State([], [b], None)
  {
    DeleteFirstStore(Storage.EmptyStore, a, b, true);
    Storage.RunStep(Page.State([], [a, b], Some(a)), Page.Delete(a), []);
  }

  lemma PagesFromFirst(a: string, ib: string)
    requires Text.Trim(ib) != [] && a != Text.Trim(ib)
    ensures Page.Run(Page.State([], [a], Some(a)), [Page.Add(ib), Page.Delete(a)])
            == Page.State([], [Text.Trim(ib)], None)
  {
    AddSecondStore(Storage.EmptyStore, a, ib, true);
    PagesFromSecond(a, Text.Trim(ib));
    Storage.RunStep(Page.State([], [a], Some(a)), Page.Add(ib), [Page.Delete(a)]);
  }

  /** The pages the session passes through: it ends with the second name
      alone and nobody selected. */
  lemma SessionPages(ia: string, ib: string)
    requires Text.Trim(ia) != [] && Text.Trim(ib) != [] && Text.Trim(ia) != Text.Trim(ib)
    ensures Page.Run(Page.Initial, Actions(ia, ib)) == Page.State([], [Text.Trim(ib)], None)
  {
    var a := Text.Trim(ia);
    AddFirstStore(Storage.EmptyStore, ia, true);
    PagesFromFirst(a, ib);
    Storage.RunStep(Page.Initial, Page.Add(ia), [Page.Add(ib), Page.Delete(a)]);
  }

  lemma StoreFromSecond(st: Storage.Store, a: string, b: string, corrected: bool)
    requires a != b
    ensures Storage.RunStore(st, Page.State([], [a, b], Some(a)), [Page.Delete(a)], corrected)
            == Storage.WriteParticipants(st, Page.State([], [b], None), corrected)
  {
    DeleteFirstStore(st, a, b, corrected);
    Storage.RunStoreStep(st, Page.State([], [a, b], Some(a)), Page.Delete(a), [], corrected);
  }

  lemma StoreFromFirst(st: Storage.Store, a: string, ib: string, corrected: bool)
    requires Text.Trim(ib) != [] && a != Text.Trim(ib)
    ensures Storage.RunStore(st, Page.State([], [a], Some(a)), [Page.Add(ib), Page.Delete(a)], corrected)
            == Storage.WriteParticipants(st, Page.State([], [Text.Trim(ib)], None), corrected)
  {
    var st2 := Storage.WriteParticipants(st, Page.State([], [a, Text.Trim(ib)], Some(a)), corrected);
    AddSecondStore(st, a, ib, corrected);
    StoreFromSecond(st2, a, Text.Trim(ib), corrected);
    Storage.RunStoreStep(st, Page.State([], [a], Some(a)), Page.Add(ib), [Page.Delete(a)], corrected);
  }

  /** The store the session leaves: every handler wrote the roster and the
      selection, the delete last. */
  lemma SessionStore(ia: string, ib: string, corrected: bool)
    requires Text.Trim(ia) != [] && Text.Trim(ib) != [] && Text.Trim(ia) != Text.Trim(ib)
    ensures Storage.RunStore(Storage.EmptyStore, Page.Initial, Actions(ia, ib), corrected)
            == Storage.WriteParticipants(Storage.EmptyStore, Page.State([], [Text.Trim(ib)], None), corrected)
  {
    var a := Text.Trim(ia);
    var st1 := Storage.WriteParticipants(Storage.EmptyStore, Page.State([], [a], Some(a)), corrected);
    AddFirstStore(Storage.EmptyStore, ia, corrected);
    StoreFromFirst(st1, a, ib, corrected);
    Storage.RunStoreStep(Storage.EmptyStore, Page.Initial, Page.Add(ia), [Page.Add(ib), Page.Delete(a)], corrected);
  }

  /** Reloading a store whose roster key holds `[b]` after a save with
      nobody selected: as written the selection comes back as "null", off
      the roster, and a reaction tap is accepted for it. */
  lemma NullSelectionReload(b: string, now: Clock.KoreanTime)
    requires b != "null"
    ensures Storage.Load(Storage.WriteParticipants(Storage.EmptyStore, Page.State([], [b], None), false))
            == Page.State([], [b], Some("null"))
    ensures !Page.Valid(Page.State([], [b], Some("null")))
    ensures Page.EmojiClick(Page.State([], [b], Some("null")), "x", "y", now).next.records[0].participant == "null"
    ensures Storage.Load(Storage.WriteParticipants(Storage.EmptyStore, Page.State([], [b], None), true))
            == Page.State([], [b], None)
  {
  }

  /** For any two different names typed on a fresh page, the second of
      which does not trim to "null", the session ends
      on a valid page holding the second name with nobody selected. As
      written, the delete saved the null selection as "null": a reload
      selects "null", which is not on the roster, and the next reaction tap
      is logged for "null". With the corrected save the reload gives back
      the page. */
  lemma ReloadAsWrittenBreaksValid(ia: string, ib: string, now: Clock.KoreanTime)
    requires Text.Trim(ia) != [] && Text.Trim(ib) != [] && Text.Trim(ia) != Text.Trim(ib)
    requires Text.Trim(ib) != "null"
    ensures Page.Valid(Page.Run(Page.Initial, Actions(ia, ib)))
    ensures Storage.Load(Storage.RunStore(Storage.EmptyStore, Page.Initial, Actions(ia, ib), false))
            == Page.State([], [Text.Trim(ib)], Some("null"))
    ensures !Page.Valid(Storage.Load(Storage.RunStore(Storage.EmptyStore, Page.Initial, Actions(ia, ib), false)))
    ensures Page.EmojiClick(Storage.Load(Storage.RunStore(Storage.EmptyStore, Page.Initial, Actions(ia, ib), false)),
                            "x", "y", now).next.records[0].participant == "null"
    ensures Storage.Load(Storage.RunStore(Storage.EmptyStore, Page.Initial, Actions(ia, ib), true))
            == Page.Run(Page.Initial, Actions(ia, ib))
  {
    SessionPages(ia, ib);
    SessionStore(ia, ib, false);
    SessionStore(ia, ib, true);
    NullSelectionReload(Text.Trim(ib), now);
  }
}

=== FILE: storage.dfy ===
/** The page's persistence in the browser's key-value store (script.js):
    `saveRecords`, `saveParticipants` and `loadRecords`. The store holds
    three keys; `None` stands for an absent key. The two lists are kept as
    JSON text, and `JSON.stringify` followed by `JSON.parse` is taken to
    give back the same list; the selection is stored as a raw string. */
module Storage {
  import opened Wrappers
  import Page
  import Text

  datatype Store = Store(
    meetRecords: Option<seq<Page.Record>>,
    meetParticipants: Option<seq<string>>,
    selectedParticipant: Option<string>)

  const EmptyStore := Store(None, None, None)

  /** `loadRecords` (and the same reads when the page starts): an absent
      list is empty, and an absent or empty selection is null. */
  function Load(st: Store): (s: Page.State)
    ensures s.selected != Some("")
    ensures st.meetRecords.Some? ==> s.records == st.meetRecords.value
    ensures st.meetRecords.None? ==> s.records == []
    ensures st.meetParticipants.Some? ==> s.participants == st.meetParticipants.value
    ensures st.meetParticipants.None? ==> s.participants == []
    ensures st.selectedParticipant.None? || st.selectedParticipant == Some("") <==> s.selected.None?
    ensures st.selectedParticipant.Some? && st.selectedParticipant != Some("") ==> s.selected == st.selectedParticipant
  {
    var selected := if st.selectedParticipant == Some("") then None else st.selectedParticipant;
    Page.State(st.meetRecords.GetOr([]), st.meetParticipants.GetOr([]), selected)
  }

  /** `setItem` stores the string conversion of its value: a name is
      stored as it is, and null as the four-letter string "null", so null
      and the name "null" end up as the same stored text. */
  function StoredString(v: Option<string>): (r: string)
    ensures v.Some? ==> r == v.value
    ensures r == "null" <==> v.None? || v == Some("null")
  {
    match v
    case Some(x) => x
    case None => "null"
  }

  /** `saveRecords`: the next load sees the new log, and the roster and
      the selection as before. */
  function SaveRecords(st: Store, records: seq<Page.Record>): (r: Store)
    ensures Load(r).records == records
    ensures Load(r).participants == Load(st).participants && Load(r).selected == Load(st).selected
  {
    st.(meetRecords := Some(records))
  }

  /** `saveParticipants` as the page writes it: the selection is passed to
      `setItem` even when it is null. The next load sees the new roster and
      the log as before; a saved null selection loads as the participant
      named "null", and any other non-empty selection as itself. */
  function SaveParticipantsAsWritten(st: Store, participants: seq<string>, selected: Option<string>): (r: Store)
    ensures Load(r).participants == participants && Load(r).records == Load(st).records
    ensures selected.None? ==> Load(r).selected == Some("null")
    ensures selected.Some? && selected != Some("") ==> Load(r).selected == selected
  {
    st.(meetParticipants := Some(participants), selectedParticipant := Some(StoredString(selected)))
  }

  /** `saveParticipants` as evidently intended: a null selection removes
      the key instead of storing the text "null". The next load sees the
      new roster, the log as before, and the selection as saved, unless it
      was the empty name. */
  function SaveParticipants(st: Store, participants: seq<string>, selected: Option<string>): (r: Store)
    ensures Load(r).participants == participants && Load(r).records == Load(st).records
    ensures selected != Some("") ==> Load(r).selected == selected
  {
    st.(meetParticipants := Some(participants), selectedParticipant := selected)
  }

  /** The two saves in a row, `saveRecords` then the corrected
      `saveParticipants`, as the import does them. */
  function Persist(st: Store, s: Page.State): Store {
    SaveParticipants(SaveRecords(st, s.records), s.participants, s.selected)
  }

  /** `saveParticipants` for the state `s`, as written or corrected. */
  function WriteParticipants(st: Store, s: Page.State, corrected: bool): Store {
    if corrected then SaveParticipants(st, s.participants, s.selected)
    else SaveParticipantsAsWritten(st, s.participants, s.selected)
  }

  /** The store after the handler for `a` ran on `s`. Each handler saves
      only what it changes, and only once its guards let it through: the
      roster handlers call `saveParticipants`, the log handlers call
      `saveRecords`, and a confirmed import calls both. */
  function AfterAction(st: Store, s: Page.State, a: Page.Action, corrected: bool): (r: Store)
    ensures a.Add? || a.Delete? || a.Select? ==> r.meetRecords == st.meetRecords
    ensures a.Emoji? || a.Divider? || a.Clear? ==>
              r.meetParticipants == st.meetParticipants && r.selectedParticipant == st.selectedParticipant
    ensures !a.Select? && !a.Import? && Page.Apply(s, a) == s ==> r == st
    ensures a.Import? && !(a.file.Parsed? && a.confirmed) ==> r == st
  {
    var next := Page.Apply(s, a);
    match a
    case Add(input) =>
      if Page.AddParticipant(s, input).alert.None? then WriteParticipants(st, next, corrected) else st
    case Delete(name) =>
      if name in s.participants then WriteParticipants(st, next, corrected) else st
    case Select(_) => WriteParticipants(st, next, corrected)
    case Emoji(_, _, _) => if Page.HasSelection(s) then SaveRecords(st, next.records) else st
    case Divider(input, _) => if Text.Trim(input) != [] then SaveRecords(st, next.records) else st
    case Clear(confirmed) => if s.records != [] && confirmed then SaveRecords(st, next.records) else st
    case Import(file, confirmed) =>
      if file.Parsed? && confirmed then WriteParticipants(SaveRecords(st, next.records), next, corrected) else st
  }

  /** The store after a sequence of actions, first action first. */
  function RunStore(st: Store, s: Page.State, actions: seq<Page.Action>, corrected: bool): Store
    decreases |actions|
  {
    if actions == [] then st
    else RunStore(AfterAction(st, s, actions[0], corrected), Page.Apply(s, actions[0]), actions[1..], corrected)
  }

  /** No action of the sequence selects the empty name, the one selection
      the store cannot tell apart from none. */
  predicate NeverSelectsEmpty(actions: seq<Page.Action>) {
    forall i :: 0 <= i < |actions| ==> actions[i] != Page.Select("")
  }

  /** A page opened on an empty store starts from the empty state. */
  lemma LoadEmptyStore()
    ensures Load(EmptyStore) == Page.Initial
  {
  }

  /** With the corrected save, reloading gives back the saved state
      whenever its selection is not the empty name. */
  lemma ReloadRestores(st: Store, s: Page.State)
    requires s.selected != Some("")
    ensures Load(Persist(st, s)) == s
  {
  }

  /** A roster handler with the corrected save keeps the store loading as
      the page. */
  lemma RosterReloadRestores(st: Store, s: Page.State, a: Page.Action)
    requires Load(st) == s && (a.Add? || a.Delete? || a.Select?) && a != Page.Select("")
    ensures Load(AfterAction(st, s, a, true)) == Page.Apply(s, a)
  {
    if a.Add? {
      var r := Page.AddParticipant(s, a.input);
      assert r.alert.None? ==> r.next.selected != Some("");
    }
  }

  /** A log handler or an import with the corrected save keeps the store
      loading as the page. */
  lemma LogReloadRestores(st: Store, s: Page.State, a: Page.Action)
    requires Load(st) == s && (a.Emoji? || a.Divider? || a.Clear? || a.Import?)
    ensures Load(AfterAction(st, s, a, true)) == Page.Apply(s, a)
  {
  }

  /** One handler with the corrected save: if the store loaded as the page
      before, it loads as the page after. */
  lemma ActionReloadRestores(st: Store, s: Page.State, a: Page.Action)
    requires Load(st) == s && a != Page.Select("")
    ensures Load(AfterAction(st, s, a, true)) == Page.Apply(s, a)
  {
    if a.Add? || a.Delete? || a.Select? {
      RosterReloadRestores(st, s, a);
    } else {
      LogReloadRestores(st, s, a);
    }
  }

  /** With the corrected save, and this page as the store's only writer, a
      reload at any point of a session gives back the page as it was, as
      long as nobody selected the empty name. */
  lemma {:induction false} RunReloadRestores(st: Store, s: Page.State, actions: seq<Page.Action>)
    requires Load(st) == s && NeverSelectsEmpty(actions)
    ensures Load(RunStore(st, s, actions, true)) == Page.Run(s, actions)
    decreases |actions|
  {
    if actions != [] {
      ActionReloadRestores(st, s, actions[0]);
      assert NeverSelectsEmpty(actions[1..]) by {
        forall i | 0 <= i < |actions[1..]|
          ensures actions[1..][i] != Page.Select("")
        {
          assert actions[1..][i] == actions[i + 1];
        }
      }
      RunReloadRestores(AfterAction(st, s, actions[0], true), Page.Apply(s, actions[0]), actions[1..]);
    }
  }

  /** Running `[a] + rest` is running `a`, then `rest`. */
  lemma RunStep(s: Page.State, a: Page.Action, rest: seq<Page.Action>)
    ensures Page.Run(s, [a] + rest) == Page.Run(Page.Apply(s, a), rest)
  {
    assert ([a] + rest)[1..] == rest;
  }

  /** The store after `[a] + rest` is the store after `rest`, started from
      the store and page `a` leaves. */
  lemma RunStoreStep(st: Store, s: Page.State, a: Page.Action, rest: seq<Page.Action>, corrected: bool)
    ensures RunStore(st, s, [a] + rest, corrected)
            == RunStore(AfterAction(st, s, a, corrected), Page.Apply(s, a), rest, corrected)
  {
    assert ([a] + rest)[1..] == rest;
  }
}

=== FILE: text.dfy ===
/** The string primitives the page relies on: `String.prototype.trim`,
    decimal rendering of integers (`String(n)`, template interpolation) and
    `String.prototype.padStart` with a one-character fill. */
module Text {

  /** The code points ECMAScript's `trim` strips: the WhiteSpace set (tab,
      vertical tab, form feed, byte order mark and every Unicode space
      separator) and the LineTerminator set (LF, CR, U+2028, U+2029). */
  predicate IsWhitespace(c: char) {
    var k := c as int;
    || k == 0x09 || k == 0x0A || k == 0x0B || k == 0x0C || k == 0x0D
    || k == 0x20 || k == 0xA0 || k == 0x1680
    || (0x2000 <= k <= 0x200A)
    || k == 0x2028 || k == 0x2029 || k == 0x202F || k == 0x205F
    || k == 0x3000 || k == 0xFEFF
  }

  predicate AllWhitespace(s: string) {
    forall i :: 0 <= i < |s| ==> IsWhitespace(s[i])
  }

  /** `s` without its leading whitespace: a suffix of `s` that does not
      start with whitespace, and what was dropped is all whitespace. */
  function TrimStart(s: string): (r: string)
    ensures |r| <= |s| && r == s[|s| - |r|..]
    ensures AllWhitespace(s[..|s| - |r|])
    ensures r == [] || !IsWhitespace(r[0])
  {
    if s != [] && IsWhitespace(s[0]) then TrimStart(s[1..]) else s
  }

  /** `s` without its trailing whitespace: a prefix of `s` that does not
      end with whitespace, and what was dropped is all whitespace. */
  function TrimEnd(s: string): (r: string)
    ensures |r| <= |s| && r == s[..|r|]
    ensures AllWhitespace(s[|r|..])
    ensures r == [] || !IsWhitespace(r[|r| - 1])
  {
    if s != [] && IsWhitespace(s[|s| - 1]) then TrimEnd(s[..|s| - 1]) else s
  }

  /** `r` sits in `s` at offset `i`, everything around it is whitespace,
      and `r` neither starts nor ends with whitespace. */
  ghost predicate IsTrimAt(r: string, s: string, i: nat)
    requires i + |r| <= |s|
  {
    && s[i..i + |r|] == r
    && AllWhitespace(s[..i])
    && AllWhitespace(s[i + |r|..])
    && (r == [] || (!IsWhitespace(r[0]) && !IsWhitespace(r[|r| - 1])))
  }

  /** Declarative meaning of trimming, independent of how it is computed. */
  ghost predicate IsTrimOf(r: string, s: string) {
    exists i: nat :: i + |r| <= |s| && IsTrimAt(r, s, i)
  }

  /** `String.prototype.trim`. */
  function Trim(s: string): (r: string)
    ensures IsTrimOf(r, s)
  {
    var a := TrimStart(s);
    var r := TrimEnd(a);
    var i := |s| - |a|;
    assert s[i..i + |r|] == r by {
      assert s[i..i + |r|] == a[..|r|];
    }
    assert s[i + |r|..] == a[|r|..];
    assert IsTrimAt(r, s, i);
    r
  }

  /** Two candidates placed in `s` as `IsTrimAt` demands are the same
      string: there is only one way to trim. */
  lemma TrimAtUnique(r1: string, i1: nat, r2: string, i2: nat, s: string)
    requires i1 + |r1| <= |s| && IsTrimAt(r1, s, i1)
    requires i2 + |r2| <= |s| && IsTrimAt(r2, s, i2)
    ensures r1 == r2
  {
  }

  /** `Trim` computes exactly the declarative trim, in both directions. */
  lemma TrimCharacterised(r: string, s: string)
    ensures IsTrimOf(r, s) <==> r == Trim(s)
  {
    if IsTrimOf(r, s) {
      var i: nat :| i + |r| <= |s| && IsTrimAt(r, s, i);
      var t := Trim(s);
      var j: nat :| j + |t| <= |s| && IsTrimAt(t, s, j);
      TrimAtUnique(r, i, t, j, s);
    }
  }

  /** A string trims to the empty string exactly when it is all whitespace. */
  lemma TrimEmptyIff(s: string)
    ensures Trim(s) == [] <==> AllWhitespace(s)
  {
  }

  /** Trimming twice is trimming once. */
  lemma TrimIdempotent(s: string)
    ensures Trim(Trim(s)) == Trim(s)
  {
  }

  predicate IsDigit(c: char) {
    '0' <= c <= '9'
  }

  predicate AllDigits(s: string) {
    forall i :: 0 <= i < |s| ==> IsDigit(s[i])
  }

  function DigitChar(d: nat): (c: char)
    requires d < 10
    ensures IsDigit(c)
  {
    ('0' as int + d) as char
  }

  function DigitValue(c: char): nat
    requires IsDigit(c)
  {
    c as int - '0' as int
  }

  /** `String(n)` for a non-negative integer: its decimal digits, with no
      leading zero except for zero itself. */
  function NatToString(n: nat): (r: string)
    ensures r != [] && AllDigits(r)
    ensures r[0] == '0' ==> n == 0
    decreases n
  {
    if n < 10 then [DigitChar(n)] else NatToString(n / 10) + [DigitChar(n % 10)]
  }

  /** `String(i)` for any integer: the decimal digits of its magnitude,
      after a minus sign when it is negative. */
  function IntToString(i: int): (r: string)
    ensures r != []
    ensures i >= 0 ==> AllDigits(r) && ParseDecimal(r) == i
    ensures i >= 0 && r[0] == '0' ==> i == 0
    ensures i < 0 ==> r[0] == '-' && AllDigits(r[1..]) && ParseDecimal(r[1..]) == -i
    ensures i < 0 ==> |r| >= 2 && r[1] != '0'
  {
    if i < 0 then
      var digits := NatToString(-i);
      ParseNatToString(-i);
      assert ("-" + digits)[1..] == digits;
      "-" + digits
    else
      ParseNatToString(i);
      NatToString(i)
  }

  /** The value of a string of decimal digits (leading zeros allowed). */
  function ParseDecimal(s: string): nat
    requires AllDigits(s)
  {
    if s == [] then 0 else ParseDecimal(s[..|s| - 1]) * 10 + DigitValue(s[|s| - 1])
  }

  /** Reading back the decimal rendering of `n` gives `n`. */
  lemma {:induction false} ParseNatToString(n: nat)
    ensures ParseDecimal(NatToString(n)) == n
    decreases n
  {
    var r := NatToString(n);
    if n >= 10 {
      ParseNatToString(n / 10);
      assert r[..|r| - 1] == NatToString(n / 10);
    }
  }

  /** Decimal renderings have as many characters as the number has digits. */
  lemma NatToStringLength(n: nat)
    ensures n < 10 ==> |NatToString(n)| == 1
    ensures 10 <= n < 100 ==> |NatToString(n)| == 2
    ensures 1000 <= n < 10000 ==> |NatToString(n)| == 4
  {
    if 1000 <= n < 10000 {
      assert |NatToString(n / 10)| == 3 by {
        assert |NatToString(n / 100)| == 2;
      }
    }
  }

  function Repeat(c: char, n: nat): (r: string)
    ensures |r| == n
    ensures forall i :: 0 <= i < n ==> r[i] == c
  {
    if n == 0 then [] else [c] + Repeat(c, n - 1)
  }

  /** `s.padStart(width, fill)` for a one-character `fill`: `s` is kept
      whole at the end, and fill characters make up any shortfall. */
  function PadStart(s: string, width: nat, fill: char): (r: string)
    ensures |r| == if |s| >= width then |s| else width
    ensures r[|r| - |s|..] == s
    ensures forall i :: 0 <= i < |r| - |s| ==> r[i] == fill
  {
    if |s| >= width then s else Repeat(fill, width - |s|) + s
  }
}

=== FILE: wrappers.dfy ===
/** The nullable value of the page: `None` stands for JavaScript's `null`
    (or a missing property), `Some(v)` for a present value. */
module Wrappers {

  datatype Option<+T> = None | Some(value: T) {

    /** Returns the encapsulated value, or `default` when there is none;
        this is the `x || default` idiom of the page for values that are
        never falsy (arrays). */
    function GetOr(default: T): T
    {
      match this
      case Some(v) => v
      case None => default
    }
  }
}
